=== FILE: README.md ===
# A* route planner — Dafny model

This project models the A* route planner of a street-map route finder
(`src/route_planner.cpp`). The planner resolves the start and end coordinates
to their closest graph nodes and seeds an open list with the start node. It
then repeatedly pops the open node with the least estimated total cost `g + h`.
When the popped node lies at distance zero from the end node, the planner walks
parent links back to the start, reverses the walk, and publishes it as the path
together with its length in metres. Otherwise it expands the popped node: every
neighbour gets its parent, `g` and `h` set, is appended to the open list and is
marked visited.

The model is functional:

- A `Planner` value holds the graph, the start and end nodes, a map from node
  to `Annotation` (visited flag, parent, `g`, `h`), the open list as a sequence,
  the reported distance and the published path.
- Each method of the C++ planner is a pure function from one planner to the next.
- The graph the planner consumes (`FindClosestNode`, `FindNeighbors`, node
  distance, `MetricScale`) is a `RouteModel` record of oracle functions in
  module `Graph`.
- Distances are non-negative `real`s.
- The search loop gets a fuel bound.
  - `ParentCycle` stands for a parent walk that never ends, on which the C++
    planner would not return.
  - `OutOfFuel` means the bound ran out. That happens in a run the C++ planner
    would not end, and also in a run that was given too few iterations.

Files:

- `wrappers.dfy`: `Option`.
- `route_model.dfy`: module `Graph`. The graph oracle, walk lengths, and the
  metric properties of the distance.
- `annotations.dfy`: module `Annotations`. The per-node annotation table and
  the parent chains it holds.
- `route_planner.dfy`: module `RoutePlanner`. Planner state and the operations.
- `search_invariant.dfy`: module `SearchInvariant`. The loop invariant, the
  termination measure and the completion theorem.
- `planner_properties.dfy`: module `PlannerProperties`. Heuristic
  admissibility and the meaning of the reported distance.

## Model

| member | source | states |
|---|---|---|
| RoutePlanner.NewPlanner | src/route_planner.cpp:4-16 | The start and end nodes are the graph's closest nodes to the given percentage coordinates divided by 100. The open list is empty, no path is published and the annotation table is empty, so every node is untouched. When the closest-node lookup yields graph nodes, both nodes are in the graph. |
| PlannerProperties.HeuristicAdmissible | src/route_planner.cpp:20-22 | Take any walk whose last node is at distance zero from the end node, under a metric distance. The heuristic of the walk's first node is at most the walk's length. |
| RoutePlanner.Annotate | src/route_planner.cpp:30-37 | Over the neighbour list, each neighbour is visited, has parent `cur` and has `h` equal to its distance to the end. Its `g` is cur's `g` plus the edge, provided `cur` is not among the neighbours. The open list gains the neighbours in order. Every other node's annotation is unchanged, and so is every other planner field. |
| RoutePlanner.AddNeighbors | src/route_planner.cpp:26-38 | The open list becomes the old list followed by the discovered neighbours in discovery order, so its length grows by their count. Each neighbour gets parent `cur` and `h = dist(nb, end)`, and is marked visited. When `cur` is not among the neighbours, each neighbour gets `g = g(cur) + dist(cur, nb)`. Nodes that are not neighbours keep their annotations, so `cur` keeps its own when discovery does not yield it. No other planner field changes. |
| RoutePlanner.IndexOfCheapest | src/route_planner.cpp:44-48 | The index chosen is in range. Its estimated cost is at most that of every open node, and strictly below that of every earlier node, so it is the first minimum. |
| RoutePlanner.RemoveAtMultiset | src/route_planner.cpp:48-50 | Erasing the element at one position removes exactly one occurrence of it from the multiset of the list. |
| RoutePlanner.TakeCheapest | src/route_planner.cpp:44-50 | The node taken is on the open list and has the least `g + h` there. The remaining list is the old multiset minus one occurrence of that node, and it is one shorter. |
| RoutePlanner.NextNode | src/route_planner.cpp:42-53 | For a non-empty open list: returns an open node of minimum `g + h` and removes exactly one occurrence of it, so the list shrinks by one. Nothing but the open list changes. |
| Annotations.WalkToRoot | src/route_planner.cpp:67-72 | The backward walk has one more node than the chain has links. It starts at `n`, each node's parent is the next node, and it ends at a parentless node. |
| RoutePlanner.Reverse | src/route_planner.cpp:74 | The reversed sequence has the same length, and position `i` holds the element at position `len - 1 - i` of the original. |
| RoutePlanner.ReversedWalkLinks | src/route_planner.cpp:67-74 | The reversed walk starts at a parentless node and ends at `n`. Each later node has the previous node as its parent. |
| RoutePlanner.ChainDistanceIsBackLength | src/route_planner.cpp:64-71 | The distance accumulated child-to-parent during the walk equals the sum, along the root-first path, of each node's distance back to its predecessor. |
| RoutePlanner.ConstructFinalPath | src/route_planner.cpp:62-79 | The path has chain length + 1 nodes, starts at a parentless node and ends at `n`, and each node after the first has its predecessor as parent. The distance is `MetricScale` times the summed node-to-parent distances along the path. It does not depend on the previous distance, because it is reset on each call. Nothing else in the planner changes. |
| Annotations.ChainHops | src/route_planner.cpp:67-71 | A result is the exact number of parent links to a parentless node and lies within the bound. Every chain that fits within the bound is found. |
| RoutePlanner.Initialize | src/route_planner.cpp:85-86 | The start node is marked visited and appended to the open list. Its parent, `g` and `h` are kept. No other annotation and no other field changes. |
| RoutePlanner.Finish | src/route_planner.cpp:93-96 | The goal branch stops the loop. The status is `Found` exactly when following parent links from the popped node reaches a parentless node. In that case it publishes a traced path whose last node is the popped node. Otherwise it reports `ParentCycle` and leaves the path untouched. Only the distance and the path change: the annotation table, the open list, graph, start and end are those of the popped state. |
| RoutePlanner.Iterate | src/route_planner.cpp:89-99 | An iteration stops exactly when the popped node is at distance zero from the end node. When it stops, the result is `Found` exactly when the popped node's parent walk ends; it then publishes a path whose last node is at the goal, and otherwise it reports `ParentCycle` and leaves the path untouched. When it stops, only the distance and the path differ from the popped state, so the published path follows the parent links the search built. When it continues, the next state is the popped state with the popped node expanded, and it publishes nothing. |
| RoutePlanner.Search | src/route_planner.cpp:89-100 | The loop publishes a path only when it stops with `Found`: a traced path ending at distance zero from the end node. An empty open list gives `Exhausted` with the planner unchanged. A non-empty open list with no iterations left gives `OutOfFuel` with the planner unchanged. `Exhausted` always comes with an empty open list. |
| RoutePlanner.AStarSearch | src/route_planner.cpp:84-101 | After initialisation and the loop, a path is published only on `Found`, and it ends at the goal. Otherwise the path is untouched. |
| SearchInvariant.InitializeEstablishesInv | src/route_planner.cpp:85-86 | Initialising a fresh planner whose start is a graph node establishes the loop invariant. The measure then equals the number of graph nodes. |
| SearchInvariant.ExpandKeepsOpenList | src/route_planner.cpp:35-36 | Discovery yields only fresh nodes. After expansion, every open node is visited and no node is open twice. Every node newly appended was unvisited before. |
| SearchInvariant.ExpandKeepsChains | src/route_planner.cpp:31-36 | After expansion, the parent of a visited node is visited, and every visited node still has a parent chain. The only visited parentless node is the start node. |
| SearchInvariant.StepPreservesInv | src/route_planner.cpp:25-36 | When discovery for the popped node yields unvisited graph nodes, each once, one expanding iteration keeps the invariant and lowers the measure (unvisited graph nodes plus open-list length) by exactly one. |
| Annotations.ChainBound | src/route_planner.cpp:67-71 | A parent chain of `k` links has `k` distinct annotated nodes, so `k` is at most the size of the annotation table. |
| Annotations.BoundedWalkFindsEveryChain | src/route_planner.cpp:67-71 | The parent walk bounded by the size of the annotation table fails exactly when no parentless node is ever reached. |
| SearchInvariant.GoalIterationFinds | src/route_planner.cpp:91-96 | Under the invariant, popping a node at the goal ends the search with `Found`. The published path starts at the start node and ends at the popped node. |
| SearchInvariant.SearchCompletes | src/route_planner.cpp:89-100 | Given at least as many iterations as the measure, the loop ends by finding a path that starts at the start node, or by exhausting the open list. It never runs out of fuel and never meets a cyclic parent walk. |
| SearchInvariant.AStarSearchCompletes | src/route_planner.cpp:84-100 | Take a fresh planner whose start is a graph node, and a discovery that yields only fresh nodes. With as many iterations as the graph has nodes, the search either publishes a path from the start node to the goal or exhausts the open list and publishes nothing. |
| SearchInvariant.ConstructedSearchCompletes | src/route_planner.cpp:4-101 | Take a constructed planner over a graph whose closest-node lookup yields graph nodes and whose discovery yields only fresh nodes. With as many iterations as the graph has nodes, the search either publishes a path from the start node to the goal, each node a discovered neighbour of the one before it, or exhausts the open list with no path published. |
| SearchInvariant.AddNeighborsLinked | src/route_planner.cpp:28-31 | Expansion sets parent links only from discovered neighbours to the expanded node, so if every parent link joined a node to one discovered from its parent before, it still does. |
| SearchInvariant.IterateLinked | src/route_planner.cpp:89-99 | One iteration, stopping or continuing, keeps every parent link a discovery link. |
| SearchInvariant.SearchLinked | src/route_planner.cpp:89-100 | The whole search loop keeps every parent link a discovery link, for any number of iterations. |
| SearchInvariant.TracedLinked | src/route_planner.cpp:67-74 | A path traced along parent links that all follow discovery is connected: each node is a neighbour of the one before it. |
| SearchInvariant.AStarPathConnected | src/route_planner.cpp:84-100 | For any fuel and any discovery, a path the search publishes from a planner whose parent links follow discovery (a fresh one has none) is connected in the graph: each node after the first was discovered from the node before it. |
| Graph.BackLengthIsWalkLength | src/route_planner.cpp:69 | Under a metric distance, summing each node's distance back to its predecessor equals the forward length of the walk. |
| Graph.BackLengthSnoc | src/route_planner.cpp:69 | Appending a node to a walk adds that node's distance back to the previous last node. |
| PlannerProperties.ReportedDistanceIsWalkLength | src/route_planner.cpp:64-76 | Under a metric distance, the distance reported by path reconstruction is `MetricScale` times the sum of `dist(path[i], path[i+1])` over consecutive pairs. |
| PlannerProperties.PublishedPathBounds | src/route_planner.cpp:93-96 | For a published path under a metric distance, the heuristic of the first node is at most the path's length. The reported distance is that length in metres. |

## Left out

- Floating point: coordinates, costs and distances are exact `real`s. The
  program's single-precision rounding of `g`, `h` and the distance sum is not
  modelled. The percentage conversion `x * 0.01` is the exact division by 100.
- The graph's own operations (`FindClosestNode`, `FindNeighbors`, node
  distance, `MetricScale`) are oracle fields of `RouteModel`. Their code is not
  part of this model.
- `FindNeighbors`: the model assumes that each call's neighbour list depends
  only on the node and on the set of visited nodes.
  - The program keeps the list on the node itself (`current_node->neighbors`,
    iterated at `src/route_planner.cpp:30`). Nothing in `AddNeighbors` clears
    it.
  - So a node expanded twice may see its earlier neighbours again. The model
    treats every expansion as a fresh discovery.
  - That case arises only when a node enters the open list twice. The
    completion theorems exclude it through `DiscoversFreshNodes`.
- Node identity and node copies: nodes are integer handles. The published
  path lists handles rather than copies of node records.
- `std::sort` details: the model takes the first open node of least `g + h` and
  leaves the other nodes in their order. The program sorts the whole list, and
  its order among equal costs is unspecified. Every contract is stated up to
  that choice, through minimality and the multiset of the remaining list.
- Optimality: the program never relaxes a cost once set, so it does not promise
  a shortest path, and the model proves none.
- Rendering: publishing the path to the map model for display is modelled only
  as the planner's `path` field.
- Non-termination: the program loops forever when discovery keeps re-yielding
  nodes, or when a parent walk is cyclic.
  - The model bounds the loop by `fuel` and the walk by the size of the
    annotation table.
  - `OutOfFuel` and `ParentCycle` stand for those non-returning runs.
    `OutOfFuel` also ends a run that was given too few iterations.
- DiscoversFreshNodes: the completion theorems assume more about
  `FindNeighbors` than the comment at `src/route_planner.cpp:25` says.
  - The comment promises only unvisited neighbours.
  - The model also assumes that each neighbour occurs at most once per
    discovery and that it is a node of the graph.
  - Without the first, the loop at `src/route_planner.cpp:30-36` appends a
    repeated neighbour twice. The open list can then outgrow the graph, and
    the graph-size iteration bound no longer holds.
  - Without the second, the graph's node set does not bound the visited set.
- ClosestInGraph: the end-to-end theorem also assumes that `FindClosestNode`
  returns a node of the graph. That lookup's code is not part of this model.
- Reachability of the end node is not modelled. The model proves that the
  search ends and that a published path is connected. It does not prove that
  the search finds a path whenever one exists.
- CalculateHValue: has no contract of its own beyond its type (a non-negative
  length). Its meaning as an admissible estimate is stated by
  `PlannerProperties.HeuristicAdmissible`.
- ConstructFinalPath: the program sums each node's distance to its parent, that
  is `dist(path[i+1], path[i])`. The contract states exactly that sum. It
  equals the forward sum `dist(path[i], path[i+1])` only when the distance is
  symmetric, which `PlannerProperties.ReportedDistanceIsWalkLength` assumes
  through `Metric`.
- NewPlanner: the model gives each planner an empty annotation table and no
  published path. The program keeps `visited`, `parent`, `g`, `h` and the
  published path on the graph's own nodes and model, and its constructor
  resets none of them. The model therefore matches a planner built over a
  graph that has not been searched before. Over an already-searched graph the
  program starts with stale flags and parents, and its path need not start at
  the start node. `SearchInvariant.ConstructedSearchCompletes` covers only
  the fresh case.
- The planner's initial `distance` value is not part of the constructor's
  contract, because the program leaves it to the class definition.

=== FILE: annotations.dfy ===
/**
 The per-node search annotations and the parent chains they form: the
 annotation table, the walk along parent links, the bounded form of that
 walk, and the fact that an acyclic chain never has more links than the
 table has entries.
 */
module Annotations {
  import opened Wrappers
  import opened Graph

  /** The search annotations a node carries: visited flag, parent link, cost so far (g) and heuristic estimate (h). */
  datatype Annotation = Annotation(visited: bool, parent: Option<NodeId>, g: real, h: real)

  /** The annotation of a node the search has not touched yet. */
  const Untouched := Annotation(false, None, 0.0, 0.0)

  function Lookup(ann: map<NodeId, Annotation>, n: NodeId): Annotation {
    if n in ann then ann[n] else Untouched
  }

  function ParentOf(ann: map<NodeId, Annotation>, n: NodeId): Option<NodeId> {
    Lookup(ann, n).parent
  }

  /** The nodes currently marked visited. */
  function VisitedSet(ann: map<NodeId, Annotation>): set<NodeId> {
    set n | n in ann && ann[n].visited
  }

  /** No element occurs twice in `s`. */
  ghost predicate NoDuplicates(s: seq<NodeId>) {
    forall x :: multiset(s)[x] <= 1
  }

  /** Following parent links from `n`, a parentless node is reached after exactly `hops` links. */
  predicate ChainOfLength(ann: map<NodeId, Annotation>, n: NodeId, hops: nat)
    decreases hops
  {
    match ParentOf(ann, n)
    case None => hops == 0
    case Some(q) => hops > 0 && ChainOfLength(ann, q, hops - 1)
  }

  /** The nodes visited walking parent links from `n`, in walking order (the C++ planner's vector before its reversal). */
  function WalkToRoot(ann: map<NodeId, Annotation>, n: NodeId, hops: nat): (w: seq<NodeId>)
    requires ChainOfLength(ann, n, hops)
    ensures |w| == hops + 1 && w[0] == n
    ensures forall i {:trigger ParentOf(ann, w[i])} :: 0 <= i < hops ==> ParentOf(ann, w[i]) == Some(w[i + 1])
    ensures ParentOf(ann, w[hops]) == None
    decreases hops
  {
    if hops == 0 then [n] else [n] + WalkToRoot(ann, ParentOf(ann, n).value, hops - 1)
  }

  /** Following parent links from `n` reaches a parentless node. */
  ghost predicate HasChain(ann: map<NodeId, Annotation>, n: NodeId) {
    exists k: nat :: ChainOfLength(ann, n, k)
  }

  /**
   The number of parent links from `n` to a parentless node, when it is at
   most `bound`; `None` when the walk does not end within `bound` links.
   */
  function ChainHops(ann: map<NodeId, Annotation>, n: NodeId, bound: nat): (r: Option<nat>)
    ensures r.Some? ==> ChainOfLength(ann, n, r.value) && r.value <= bound
    ensures forall k: nat :: ChainOfLength(ann, n, k) && k <= bound ==> r == Some(k)
    decreases bound
  {
    match ParentOf(ann, n)
    case None => Some(0)
    case Some(q) =>
      if bound == 0 then None
      else
        match ChainHops(ann, q, bound - 1)
        case None => None
        case Some(k) => Some(k + 1)
  }

  lemma DifferenceCard(a: set<NodeId>, s: set<NodeId>)
    requires s <= a
    ensures |a - s| == |a| - |s|
  {
  }

  /** The set of elements of `s`. */
  function Elements(s: seq<NodeId>): set<NodeId> {
    set x | x in s
  }

  /** A sequence without duplicates has as many distinct elements as it is long. */
  lemma {:induction false} NoDuplicatesCard(s: seq<NodeId>)
    requires NoDuplicates(s)
    ensures |Elements(s)| == |s|
    decreases |s|
  {
    if |s| > 0 {
      assert s == [s[0]] + s[1..];
      assert multiset(s) == multiset{s[0]} + multiset(s[1..]);
      assert multiset(s)[s[0]] == 1 + multiset(s[1..])[s[0]];
      assert s[0] !in s[1..];
      assert Elements(s) == Elements(s[1..]) + {s[0]};
      assert forall x :: multiset(s[1..])[x] <= multiset(s)[x];
      NoDuplicatesCard(s[1..]);
    }
  }

  /** Pairwise distinct elements are elements that occur at most once. */
  lemma {:induction false} DistinctNoDuplicates(s: seq<NodeId>)
    requires forall i, j :: 0 <= i < j < |s| ==> s[i] != s[j]
    ensures NoDuplicates(s)
    decreases |s|
  {
    if |s| > 0 {
      DistinctNoDuplicates(s[1..]);
      assert s == [s[0]] + s[1..];
      assert s[0] !in multiset(s[1..]);
    }
  }

  /** A node's parent chain has one length only. */
  lemma {:induction false} ChainLengthUnique(ann: map<NodeId, Annotation>, n: NodeId, j: nat, k: nat)
    requires ChainOfLength(ann, n, j) && ChainOfLength(ann, n, k)
    ensures j == k
    decreases j
  {
    match ParentOf(ann, n)
    case None =>
    case Some(q) => ChainLengthUnique(ann, q, j - 1, k - 1);
  }

  /** Each node on the walk to the root has the rest of the walk as its own chain. */
  lemma {:induction false} WalkSuffixChains(ann: map<NodeId, Annotation>, n: NodeId, k: nat)
    requires ChainOfLength(ann, n, k)
    ensures forall i :: 0 <= i <= k ==> ChainOfLength(ann, WalkToRoot(ann, n, k)[i], k - i)
    decreases k
  {
    if k > 0 {
      var q := ParentOf(ann, n).value;
      var w := WalkToRoot(ann, n, k);
      WalkSuffixChains(ann, q, k - 1);
      assert w[1..] == WalkToRoot(ann, q, k - 1);
      forall i | 0 < i <= k
        ensures ChainOfLength(ann, w[i], k - i)
      {
        assert w[i] == w[1..][i - 1];
      }
    }
  }

  /**
   An acyclic parent chain is no longer than the annotation table is large:
   its nodes are distinct and every one but the root has a parent, so an
   annotation of its own. The search loop's bounded walk therefore finds
   every chain that exists.
   */
  lemma ChainBound(ann: map<NodeId, Annotation>, n: NodeId, k: nat)
    requires ChainOfLength(ann, n, k)
    ensures k <= |ann.Keys|
  {
    var w := WalkToRoot(ann, n, k);
    WalkSuffixChains(ann, n, k);
    var s := w[..k];
    forall i, j | 0 <= i < j < |s|
      ensures s[i] != s[j]
    {
      if s[i] == s[j] {
        ChainLengthUnique(ann, s[i], k - i, k - j);
      }
    }
    DistinctNoDuplicates(s);
    NoDuplicatesCard(s);
    var keys := Elements(s);
    assert keys <= ann.Keys by {
      forall x | x in keys
        ensures x in ann.Keys
      {
        var i :| 0 <= i < |s| && s[i] == x;
        assert ParentOf(ann, w[i]).Some?;
      }
    }
    DifferenceCard(ann.Keys, keys);
  }

  /**
   The bounded parent walk comes back empty exactly when following parent
   links from `n` never reaches a parentless node, the case in which the
   C++ planner's reconstruction loop would not end.
   */
  lemma BoundedWalkFindsEveryChain(ann: map<NodeId, Annotation>, n: NodeId)
    ensures ChainHops(ann, n, |ann.Keys|) == None <==> !HasChain(ann, n)
  {
    if HasChain(ann, n) {
      var k: nat :| ChainOfLength(ann, n, k);
      ChainBound(ann, n, k);
    }
  }
}

=== FILE: planner_properties.dfy ===
/**
 Properties relating the planner's operations to the graph's distance: the
 heuristic never overestimates the length of a walk to the goal, and the
 distance reported with a reconstructed path is that path's forward length.
 Both hold when the distance is a metric, as the Euclidean distance between
 node coordinates is.
 */
module PlannerProperties {
  import opened Graph
  import opened Annotations
  import opened RoutePlanner

  /**
   The heuristic is admissible: from the first node of a walk whose last node
   lies at the goal (distance zero from the end node), the heuristic is at most
   the length of the walk.
   */
  lemma {:induction false} HeuristicAdmissible(p: Planner, w: seq<NodeId>)
    requires Metric(p.model)
    requires |w| > 0 && p.model.dist(w[|w| - 1], p.end) == 0.0
    ensures CalculateHValue(p, w[0]) <= WalkLength(p.model, w)
    decreases |w|
  {
    if |w| >= 2 {
      HeuristicAdmissible(p, w[1..]);
      assert p.model.dist(w[0], p.end) <= p.model.dist(w[0], w[1]) + p.model.dist(w[1], p.end);
    }
  }

  /**
   A distance in metres measured backwards along `w` is the same measured
   forwards. The distance is a parameter so that the product with the scale
   is compared as one term rather than re-derived by the solver.
   */
  lemma ScaledLengthsAgree(m: RouteModel, d: real, w: seq<NodeId>)
    requires Metric(m) && d == m.metricScale * BackLength(m, w)
    ensures d == m.metricScale * WalkLength(m, w)
  {
    BackLengthIsWalkLength(m, w);
  }

  /**
   The distance reported by path reconstruction is the metric scale times the
   length of the returned path walked from its first node to its last. The
   result of the reconstruction is passed in as `r` so that it is unfolded
   once.
   */
  lemma ReportedDistanceIsWalkLength(p: Planner, n: NodeId, hops: nat, r: (seq<NodeId>, Planner))
    requires Metric(p.model) && ChainOfLength(p.ann, n, hops)
    requires r == ConstructFinalPath(p, n, hops)
    ensures r.1.distance == p.model.metricScale * WalkLength(p.model, r.0)
  {
    ScaledLengthsAgree(p.model, r.1.distance, r.0);
  }

  /**
   A path published by the search is no shorter than the heuristic of its
   first node predicts, and the distance reported with it is its forward
   length in metres.
   */
  lemma PublishedPathBounds(p: Planner)
    requires Metric(p.model) && PathPublished(p)
    ensures CalculateHValue(p, p.path.value[0]) <= WalkLength(p.model, p.path.value)
    ensures p.distance == p.model.metricScale * WalkLength(p.model, p.path.value)
  {
    HeuristicAdmissible(p, p.path.value);
    ScaledLengthsAgree(p.model, p.distance, p.path.value);
  }
}

=== FILE: route_model.dfy ===
/**
 The graph collaborator the route planner consumes. Its implementation (map
 parsing, the closest-node search, the road-walking neighbour discovery) is not
 part of this model: each operation the planner calls is an oracle field of
 `RouteModel`, and the properties the planner relies on are stated as
 predicates over those fields.
 */
module Graph {

  /** Nodes are identified by a stable handle instead of the address of a stored node. */
  type NodeId = nat

  /** A non-negative distance in normalised map units. */
  type Length = r: real | 0.0 <= r witness 0.0

  /**
   The planner's view of the road graph:
   - `nodes`: the finite set of nodes the graph holds,
   - `closest(x, y)`: the node nearest to a point given as fractions of the map size,
   - `discover(n, visited)`: the neighbours `FindNeighbors` collects for `n`, given
     the set of nodes already marked visited (the real discovery skips those),
   - `dist(a, b)`: the distance between two nodes,
   - `metricScale`: the factor converting normalised units to metres.
   */
  datatype RouteModel = RouteModel(
    nodes: set<NodeId>,
    closest: (real, real) -> NodeId,
    discover: (NodeId, set<NodeId>) -> seq<NodeId>,
    dist: (NodeId, NodeId) -> Length,
    metricScale: Length)

  /** The closest-node lookup always yields a node of the graph. */
  ghost predicate ClosestInGraph(m: RouteModel) {
    forall x, y :: m.closest(x, y) in m.nodes
  }

  /** `b` is a neighbour of `a`: some discovery from `a` yields `b`. */
  ghost predicate Linked(m: RouteModel, a: NodeId, b: NodeId) {
    exists visited :: b in m.discover(a, visited)
  }

  /** Each node of `path` after the first is a neighbour of the node before it. */
  ghost predicate ConnectedPath(m: RouteModel, path: seq<NodeId>) {
    forall i :: 0 < i < |path| ==> Linked(m, path[i - 1], path[i])
  }

  /** Sum of `dist(w[i], w[i+1])` over consecutive pairs: the length of the walk `w` travelled forwards. */
  function WalkLength(m: RouteModel, w: seq<NodeId>): real
    decreases |w|
  {
    if |w| < 2 then 0.0 else m.dist(w[0], w[1]) + WalkLength(m, w[1..])
  }

  /** Sum of `dist(w[i+1], w[i])` over consecutive pairs: each node's distance back to its predecessor. */
  function BackLength(m: RouteModel, w: seq<NodeId>): real
    decreases |w|
  {
    if |w| < 2 then 0.0 else m.dist(w[1], w[0]) + BackLength(m, w[1..])
  }

  /** The distance is zero from a node to itself, symmetric, and obeys the triangle inequality (true of Euclidean distance). */
  ghost predicate Metric(m: RouteModel) {
    && (forall a :: m.dist(a, a) == 0.0)
    && (forall a, b :: m.dist(a, b) == m.dist(b, a))
    && (forall a, b, c {:trigger m.dist(a, b), m.dist(b, c), m.dist(a, c)} :: m.dist(a, c) <= m.dist(a, b) + m.dist(b, c))
  }

  /** Walking back along a walk covers the same distance as walking it forwards, when distance is a metric. */
  lemma {:induction false} BackLengthIsWalkLength(m: RouteModel, w: seq<NodeId>)
    requires Metric(m)
    ensures BackLength(m, w) == WalkLength(m, w)
    decreases |w|
  {
    if |w| >= 2 {
      BackLengthIsWalkLength(m, w[1..]);
      assert m.dist(w[1], w[0]) == m.dist(w[0], w[1]);
    }
  }

  /** Appending a node to a walk adds that node's distance back to the old last node. */
  lemma {:induction false} BackLengthSnoc(m: RouteModel, w: seq<NodeId>, x: NodeId)
    requires |w| > 0
    ensures BackLength(m, w + [x]) == BackLength(m, w) + m.dist(x, w[|w| - 1])
    decreases |w|
  {
    if |w| >= 2 {
      assert (w + [x])[1..] == w[1..] + [x];
      BackLengthSnoc(m, w[1..], x);
    }
  }
}

=== FILE: route_planner.dfy ===
/**
 The A* route planner: per-node search annotations, the open list, and the
 five operations of the planner (heuristic, expansion, frontier selection,
 path reconstruction and the search driver), each a pure function from one
 planner state to the next.
 */
module RoutePlanner {
  import opened Wrappers
  import opened Graph
  import opened Annotations

  /**
   One planner: the graph it searches, the start and end nodes resolved at
   construction, the annotation table (nodes absent from it are `Untouched`),
   the open list, the reported distance in metres, and the path published
   to the graph model for display (`None` until a search finds one).
   */
  datatype Planner = Planner(
    model: RouteModel,
    start: NodeId,
    end: NodeId,
    ann: map<NodeId, Annotation>,
    open: seq<NodeId>,
    distance: real,
    path: Option<seq<NodeId>>)

  /**
   How a search ended. `ParentCycle` stands for a parent walk that never ends,
   on which the C++ planner would not return. `OutOfFuel` means the iteration
   bound ran out, either in a run that the C++ planner would not end or in
   one that was given too few iterations.
   */
  datatype Status = Found | Exhausted | OutOfFuel | ParentCycle

  /** The estimated total cost g + h by which the open list is ordered. */
  function EstimatedCost(ann: map<NodeId, Annotation>, n: NodeId): real {
    Lookup(ann, n).g + Lookup(ann, n).h
  }

  /**
   The constructor: the start and end coordinates arrive as percentages of the
   map size, are scaled to fractions and resolved to their closest nodes. The
   annotation table starts with every node untouched and the open list empty.
   */
  function NewPlanner(model: RouteModel, startX: real, startY: real, endX: real, endY: real): (p: Planner)
    ensures p.start == model.closest(startX / 100.0, startY / 100.0)
    ensures p.end == model.closest(endX / 100.0, endY / 100.0)
    ensures p.model == model && p.open == [] && p.path == None
    ensures p.ann == map[] && forall n :: Lookup(p.ann, n) == Untouched
    ensures ClosestInGraph(model) ==> p.start in model.nodes && p.end in model.nodes
  {
    Planner(model, model.closest(startX * 0.01, startY * 0.01), model.closest(endX * 0.01, endY * 0.01),
            map[], [], 0.0, None)
  }

  /** The heuristic: the distance from `n` to the end node. */
  function CalculateHValue(p: Planner, n: NodeId): Length {
    p.model.dist(n, p.end)
  }

  /** What `FindNeighbors` yields for `cur` in the planner's current state. */
  function Discovered(p: Planner, cur: NodeId): seq<NodeId> {
    p.model.discover(cur, VisitedSet(p.ann))
  }

  /**
   The loop body of the expansion, applied to each of `nbs` in turn: set the
   neighbour's parent to `cur`, its g to cur's g plus the edge distance, its h
   to the heuristic, append it to the open list and mark it visited. Cur's g
   is read afresh on each iteration, as the C++ planner does through its node reference.
   */
  function Annotate(p: Planner, cur: NodeId, nbs: seq<NodeId>): (q: Planner)
    ensures q == p.(ann := q.ann, open := q.open)
    ensures q.open == p.open + nbs
    ensures forall n :: n !in nbs ==> Lookup(q.ann, n) == Lookup(p.ann, n)
    ensures forall nb :: nb in nbs ==>
              && Lookup(q.ann, nb).visited
              && ParentOf(q.ann, nb) == Some(cur)
              && Lookup(q.ann, nb).h == p.model.dist(nb, p.end)
    ensures cur !in nbs ==>
              forall nb :: nb in nbs ==> Lookup(q.ann, nb).g == Lookup(p.ann, cur).g + p.model.dist(cur, nb)
    decreases |nbs|
  {
    if nbs == [] then p
    else
      var nb := nbs[0];
      var a := Annotation(true, Some(cur), Lookup(p.ann, cur).g + p.model.dist(cur, nb), CalculateHValue(p, nb));
      Annotate(p.(ann := p.ann[nb := a], open := p.open + [nb]), cur, nbs[1..])
  }

  /**
   Expansion: discover the neighbours of `cur` and annotate each of them.
   Only the annotation table and the open list change; the open list grows by
   the discovered neighbours, in discovery order.
   */
  function AddNeighbors(p: Planner, cur: NodeId): (q: Planner)
    ensures q == p.(ann := q.ann, open := q.open)
    ensures var nbs := Discovered(p, cur);
            && q.open == p.open + nbs
            && |q.open| == |p.open| + |nbs|
            && (forall n :: n !in nbs ==> Lookup(q.ann, n) == Lookup(p.ann, n))
            && (forall nb :: nb in nbs ==>
                  && Lookup(q.ann, nb).visited
                  && ParentOf(q.ann, nb) == Some(cur)
                  && Lookup(q.ann, nb).h == p.model.dist(nb, p.end))
            && (cur !in nbs ==>
                  forall nb :: nb in nbs ==> Lookup(q.ann, nb).g == Lookup(p.ann, cur).g + p.model.dist(cur, nb))
  {
    Annotate(p, cur, Discovered(p, cur))
  }

  /** The position of the first open-list element of least estimated cost. */
  function IndexOfCheapest(ann: map<NodeId, Annotation>, open: seq<NodeId>): (i: nat)
    requires |open| > 0
    ensures i < |open|
    ensures forall j :: 0 <= j < |open| ==> EstimatedCost(ann, open[i]) <= EstimatedCost(ann, open[j])
    ensures forall j :: 0 <= j < i ==> EstimatedCost(ann, open[i]) < EstimatedCost(ann, open[j])
    decreases |open|
  {
    if |open| == 1 then 0
    else
      var k := IndexOfCheapest(ann, open[1..]) + 1;
      if EstimatedCost(ann, open[0]) <= EstimatedCost(ann, open[k]) then 0 else k
  }

  /** Removing the element at `i` removes exactly one occurrence of it. */
  lemma RemoveAtMultiset(s: seq<NodeId>, i: nat)
    requires i < |s|
    ensures multiset(s[..i] + s[i + 1..]) == multiset(s) - multiset{s[i]}
  {
    assert s == s[..i] + [s[i]] + s[i + 1..];
  }

  /**
   Removes the first open node of least estimated cost from `open`, keeping
   the order of the others.
   */
  function TakeCheapest(ann: map<NodeId, Annotation>, open: seq<NodeId>): (r: (NodeId, seq<NodeId>))
    requires |open| > 0
    ensures r.0 in open
    ensures forall n :: n in open ==> EstimatedCost(ann, r.0) <= EstimatedCost(ann, n)
    ensures multiset(r.1) == multiset(open) - multiset{r.0}
    ensures |r.1| == |open| - 1
  {
    var i := IndexOfCheapest(ann, open);
    RemoveAtMultiset(open, i);
    (open[i], open[..i] + open[i + 1..])
  }

  /**
   The next node to expand: an open node of least estimated cost `g + h`,
   removed from the open list. Nothing else about the planner changes.
   */
  function NextNode(p: Planner): (r: (NodeId, Planner))
    requires |p.open| > 0
    ensures r.0 in p.open
    ensures forall n :: n in p.open ==> EstimatedCost(p.ann, r.0) <= EstimatedCost(p.ann, n)
    ensures multiset(r.1.open) == multiset(p.open) - multiset{r.0}
    ensures |r.1.open| == |p.open| - 1
    ensures r.1 == p.(open := r.1.open)
  {
    var (n, rest) := TakeCheapest(p.ann, p.open);
    (n, p.(open := rest))
  }

  /** The distance accumulated on that walk: each node's distance to its parent. */
  function ChainDistance(m: RouteModel, ann: map<NodeId, Annotation>, n: NodeId, hops: nat): real
    requires ChainOfLength(ann, n, hops)
    decreases hops
  {
    if hops == 0 then 0.0
    else
      var q := ParentOf(ann, n).value;
      m.dist(n, q) + ChainDistance(m, ann, q, hops - 1)
  }

  function Reverse<T>(s: seq<T>): (r: seq<T>)
    ensures |r| == |s|
    ensures forall i :: 0 <= i < |s| ==> r[i] == s[|s| - 1 - i]
    decreases |s|
  {
    if s == [] then [] else Reverse(s[1..]) + [s[0]]
  }

  /** Reversed, the walk to the root runs from the parentless node to `n`, each node the parent of the next. */
  lemma ReversedWalkLinks(ann: map<NodeId, Annotation>, n: NodeId, hops: nat, path: seq<NodeId>)
    requires ChainOfLength(ann, n, hops)
    requires path == Reverse(WalkToRoot(ann, n, hops))
    ensures |path| == hops + 1 && path[hops] == n
    ensures ParentOf(ann, path[0]) == None
    ensures forall i {:trigger ParentOf(ann, path[i])} :: 0 < i <= hops ==> ParentOf(ann, path[i]) == Some(path[i - 1])
  {
    var w := WalkToRoot(ann, n, hops);
    forall i | 0 < i <= hops
      ensures ParentOf(ann, path[i]) == Some(path[i - 1])
    {
      assert path[i] == w[hops - i] && path[i - 1] == w[hops - i + 1];
    }
  }

  /** The distance accumulated along the chain from `n` is the back length of the root-first walk. */
  lemma {:induction false} ChainDistanceIsBackLength(m: RouteModel, ann: map<NodeId, Annotation>, n: NodeId, hops: nat)
    requires ChainOfLength(ann, n, hops)
    ensures ChainDistance(m, ann, n, hops) == BackLength(m, Reverse(WalkToRoot(ann, n, hops)))
    decreases hops
  {
    if hops > 0 {
      var q := ParentOf(ann, n).value;
      var w := WalkToRoot(ann, n, hops);
      var w' := WalkToRoot(ann, q, hops - 1);
      ChainDistanceIsBackLength(m, ann, q, hops - 1);
      assert w == [n] + w';
      assert Reverse(w) == Reverse(w') + [n];
      BackLengthSnoc(m, Reverse(w'), n);
    }
  }

  /**
   Path reconstruction from `n`: the reported distance is reset, the walk to
   the parentless node accumulates each node's distance to its parent, the
   walk is reversed so that it runs root-first, and the distance is scaled to
   metres. Only the planner's distance changes.
   */
  function ConstructFinalPath(p: Planner, n: NodeId, hops: nat): (r: (seq<NodeId>, Planner))
    requires ChainOfLength(p.ann, n, hops)
    ensures |r.0| == hops + 1
    ensures ParentOf(p.ann, r.0[0]) == None
    ensures r.0[hops] == n
    ensures forall i {:trigger ParentOf(p.ann, r.0[i])} :: 0 < i <= hops ==> ParentOf(p.ann, r.0[i]) == Some(r.0[i - 1])
    ensures r.1 == p.(distance := r.1.distance)
    ensures r.1.distance == p.model.metricScale * BackLength(p.model, r.0)
  {
    var path := Reverse(WalkToRoot(p.ann, n, hops));
    ReversedWalkLinks(p.ann, n, hops, path);
    ChainDistanceIsBackLength(p.model, p.ann, n, hops);
    var raw := ChainDistance(p.model, p.ann, n, hops);
    (path, p.(distance := p.model.metricScale * raw))
  }

  /** Search initialisation: mark the start node visited and put it on the open list. */
  function Initialize(p: Planner): (q: Planner)
    ensures q == p.(ann := q.ann, open := q.open)
    ensures Lookup(q.ann, p.start) == Lookup(p.ann, p.start).(visited := true)
    ensures q.open == p.open + [p.start]
    ensures forall n :: n != p.start ==> Lookup(q.ann, n) == Lookup(p.ann, n)
  {
    p.(ann := p.ann[p.start := Lookup(p.ann, p.start).(visited := true)], open := p.open + [p.start])
  }

  /**
   The planner holds a path that starts at a parentless node, in which every
   later node has its predecessor as parent, and whose reported distance is
   the metric scale times the sum of each node's distance back to its
   predecessor.
   */
  predicate PathTraced(p: Planner) {
    && p.path.Some?
    && var path := p.path.value;
    && |path| > 0
    && ParentOf(p.ann, path[0]) == None
    && (forall i {:trigger ParentOf(p.ann, path[i])} :: 0 < i < |path| ==> ParentOf(p.ann, path[i]) == Some(path[i - 1]))
    && p.distance == p.model.metricScale * BackLength(p.model, path)
  }

  /** A published path is a traced path whose last node lies at the goal. */
  predicate PathPublished(p: Planner) {
    PathTraced(p) && p.model.dist(p.path.value[|p.path.value| - 1], p.end) == 0.0
  }

  /** The outcome of one loop iteration: keep searching from `next`, or stop with `status`. */
  datatype Step = Continue(next: Planner) | Stop(status: Status, final: Planner)

  /**
   The goal branch of an iteration: reconstruct the path from the goal node
   `n` and publish it. A parent walk that does not end is reported as a cycle.
   */
  function Finish(q: Planner, n: NodeId): (s: Step)
    ensures s.Stop?
    ensures s.final.model == q.model && s.final.start == q.start && s.final.end == q.end
    ensures s.status == Found || s.status == ParentCycle
    ensures s.status == ParentCycle ==> s.final.path == q.path
    ensures s.status == Found ==> PathTraced(s.final) && s.final.path.value[|s.final.path.value| - 1] == n
    ensures s.status == Found <==> HasChain(q.ann, n)
    ensures s.final == q.(distance := s.final.distance, path := s.final.path)
  {
    BoundedWalkFindsEveryChain(q.ann, n);
    match ChainHops(q.ann, n, |q.ann.Keys|)
    case None => Stop(ParentCycle, q)
    case Some(hops) =>
      var (path, q') := ConstructFinalPath(q, n, hops);
      Stop(Found, q'.(path := Some(path)))
  }

  /**
   One iteration of the search loop: pop the cheapest open node; if it is at
   distance zero from the end node, reconstruct and publish the path and
   stop; otherwise expand it. The parent walk is bounded by the size of the
   annotation table, which any acyclic chain fits in; a walk that does not
   end within it stops with `ParentCycle`.
   */
  function Iterate(p: Planner): (s: Step)
    requires |p.open| > 0
    ensures var q := if s.Continue? then s.next else s.final;
            q.model == p.model && q.start == p.start && q.end == p.end
    ensures s.Continue? ==> s.next.path == p.path
    ensures s.Stop? ==> s.status == Found || s.status == ParentCycle
    ensures s.Stop? && s.status == ParentCycle ==> s.final.path == p.path
    ensures s.Stop? && s.status == Found ==> PathPublished(s.final)
    ensures s.Stop? <==> p.model.dist(NextNode(p).0, p.end) == 0.0
    ensures s.Stop? ==> (s.status == Found <==> HasChain(p.ann, NextNode(p).0))
    ensures s.Continue? ==> s.next == AddNeighbors(NextNode(p).1, NextNode(p).0)
    ensures s.Stop? ==> s.final == NextNode(p).1.(distance := s.final.distance, path := s.final.path)
  {
    var (n, q) := NextNode(p);
    if p.model.dist(n, p.end) == 0.0 then Finish(q, n)
    else Continue(AddNeighbors(q, n))
  }

  /**
   The search loop, given `fuel` iterations: iterate while the open list is
   not empty. Exhausting the open list publishes nothing.
   */
  function Search(p: Planner, fuel: nat): (r: (Status, Planner))
    ensures r.1.model == p.model && r.1.start == p.start && r.1.end == p.end
    ensures r.0 != Found ==> r.1.path == p.path
    ensures r.0 == Exhausted ==> r.1.open == []
    ensures r.0 == Found ==> PathPublished(r.1)
    ensures |p.open| == 0 ==> r == (Exhausted, p)
    ensures |p.open| > 0 && fuel == 0 ==> r == (OutOfFuel, p)
    decreases fuel
  {
    if |p.open| == 0 then (Exhausted, p)
    else if fuel == 0 then (OutOfFuel, p)
    else
      match Iterate(p)
      case Stop(status, q) => (status, q)
      case Continue(q) => Search(q, fuel - 1)
  }

  /** The search driver: initialise, then run the loop for at most `fuel` iterations. */
  function AStarSearch(p: Planner, fuel: nat): (r: (Status, Planner))
    ensures r.0 != Found ==> r.1.path == p.path
    ensures r.0 == Found ==> PathPublished(r.1)
  {
    Search(Initialize(p), fuel)
  }
}

=== FILE: search_invariant.dfy ===
/**
 What the search loop keeps true when neighbour discovery behaves as the
 expansion step assumes (it yields only unvisited nodes, each once): every
 open node is visited and open at most once, every visited node's parent
 chain ends at the start node, and a measure bounded by the graph size falls
 by one per iteration. From these: the loop never needs more iterations than
 the graph has nodes, and a published path starts at the start node.
 */
module SearchInvariant {
  import opened Wrappers
  import opened Graph
  import opened Annotations
  import opened RoutePlanner

  /** `nbs` lists nodes of the graph, each once, none of them in `visited`. */
  ghost predicate FreshDiscovery(m: RouteModel, visited: set<NodeId>, nbs: seq<NodeId>) {
    && NoDuplicates(nbs)
    && forall nb :: nb in nbs ==> nb in m.nodes && nb !in visited
  }

  /** The expansion step's assumption about the graph: neighbour discovery only ever yields fresh nodes. */
  ghost predicate DiscoversFreshNodes(m: RouteModel) {
    forall n, visited :: FreshDiscovery(m, visited, m.discover(n, visited))
  }

  /** The parent of a visited node is visited. */
  ghost predicate ParentClosed(ann: map<NodeId, Annotation>) {
    forall n {:trigger ParentOf(ann, n)} ::
      Lookup(ann, n).visited && ParentOf(ann, n).Some? ==> Lookup(ann, ParentOf(ann, n).value).visited
  }

  /** The loop invariant of the search. */
  ghost predicate Inv(p: Planner) {
    && (forall n :: n in p.open ==> Lookup(p.ann, n).visited)
    && NoDuplicates(p.open)
    && VisitedSet(p.ann) <= p.model.nodes
    && ParentClosed(p.ann)
    && (forall n :: Lookup(p.ann, n).visited ==> HasChain(p.ann, n))
    && (forall n :: Lookup(p.ann, n).visited && ParentOf(p.ann, n) == None ==> n == p.start)
  }

  /** Nodes that may still enter the open list, plus the nodes on it: one iteration removes exactly one. */
  function Measure(p: Planner): nat {
    |p.model.nodes - VisitedSet(p.ann)| + |p.open|
  }

  /** Changing only unvisited nodes' annotations leaves the chain of a visited node intact. */
  lemma {:induction false} ChainFrame(ann: map<NodeId, Annotation>, ann': map<NodeId, Annotation>, n: NodeId, k: nat)
    requires ChainOfLength(ann, n, k) && Lookup(ann, n).visited && ParentClosed(ann)
    requires forall x :: Lookup(ann, x).visited ==> Lookup(ann', x) == Lookup(ann, x)
    ensures ChainOfLength(ann', n, k)
    decreases k
  {
    if k > 0 {
      ChainFrame(ann, ann', ParentOf(ann, n).value, k - 1);
    }
  }

  /** On a path linked by parents whose node `i` is visited, the first node is visited too. */
  lemma {:induction false} PathStartVisited(ann: map<NodeId, Annotation>, path: seq<NodeId>, i: nat)
    requires ParentClosed(ann) && i < |path| && Lookup(ann, path[i]).visited
    requires forall j {:trigger ParentOf(ann, path[j])} :: 0 < j < |path| ==> ParentOf(ann, path[j]) == Some(path[j - 1])
    ensures Lookup(ann, path[0]).visited
    decreases i
  {
    if i > 0 {
      assert ParentOf(ann, path[i]) == Some(path[i - 1]);
      PathStartVisited(ann, path, i - 1);
    }
  }

  /** Initialising a fresh planner whose start node is in the graph establishes the invariant, with the graph size as measure. */
  lemma InitializeEstablishesInv(p: Planner)
    requires p.ann == map[] && p.open == [] && p.start in p.model.nodes
    ensures Inv(Initialize(p))
    ensures Measure(Initialize(p)) == |p.model.nodes|
  {
    var q := Initialize(p);
    assert VisitedSet(q.ann) == {p.start};
    assert ChainOfLength(q.ann, p.start, 0);
    assert HasChain(q.ann, p.start);
    DifferenceCard(p.model.nodes, {p.start});
  }

  /**
   Expanding a visited node when discovery yields fresh nodes changes the
   annotations of the discovered nodes only: visited nodes keep theirs, and
   the visited set grows by exactly the discovered nodes.
   */
  lemma ExpandFrame(q: Planner, n: NodeId)
    requires FreshDiscovery(q.model, VisitedSet(q.ann), Discovered(q, n)) && Lookup(q.ann, n).visited
    ensures var r := AddNeighbors(q, n);
            && (forall x :: Lookup(q.ann, x).visited ==> Lookup(r.ann, x) == Lookup(q.ann, x))
            && VisitedSet(r.ann) == VisitedSet(q.ann) + Elements(Discovered(q, n))
  {
    var r := AddNeighbors(q, n);
    var nbs := Discovered(q, n);
    forall x | Lookup(q.ann, x).visited
      ensures Lookup(r.ann, x) == Lookup(q.ann, x)
    {
      assert x in VisitedSet(q.ann);
      assert x !in nbs;
    }
  }

  /** After the expansion every open node is visited, and none is open twice. */
  lemma ExpandKeepsOpenList(p: Planner, q: Planner, n: NodeId)
    requires Inv(p) && q.ann == p.ann && q.model == p.model
    requires multiset(q.open) == multiset(p.open) - multiset{n} && n in p.open
    requires FreshDiscovery(q.model, VisitedSet(q.ann), Discovered(q, n))
    ensures var r := AddNeighbors(q, n);
            && (forall x :: x in r.open ==> Lookup(r.ann, x).visited)
            && NoDuplicates(r.open)
            && (forall x :: x in r.open && x !in q.open ==> !Lookup(p.ann, x).visited)
  {
    var r := AddNeighbors(q, n);
    var nbs := Discovered(q, n);
    ExpandFrame(q, n);
    assert forall x :: x in q.open ==> x in p.open by {
      forall x | x in q.open
        ensures x in p.open
      {
        assert x in multiset(q.open);
      }
    }
    assert multiset(r.open) == multiset(q.open) + multiset(nbs);
    forall x
      ensures multiset(r.open)[x] <= 1
    {
      if x in nbs {
        assert x !in VisitedSet(q.ann);
        assert x !in q.open;
      }
    }
    forall x | x in r.open && x !in q.open
      ensures !Lookup(p.ann, x).visited
    {
      assert x in nbs;
      assert x !in VisitedSet(q.ann);
    }
  }

  /** After the expansion every visited node still has a parent chain, and it still ends at the start node. */
  lemma ExpandKeepsChains(p: Planner, q: Planner, n: NodeId, r: Planner)
    requires Inv(p) && q.ann == p.ann && q.model == p.model && q.start == p.start
    requires Lookup(p.ann, n).visited
    requires FreshDiscovery(q.model, VisitedSet(q.ann), Discovered(q, n))
    requires r == AddNeighbors(q, n)
    ensures ParentClosed(r.ann)
    ensures forall x :: Lookup(r.ann, x).visited ==> HasChain(r.ann, x)
    ensures forall x :: Lookup(r.ann, x).visited && ParentOf(r.ann, x) == None ==> x == r.start
  {
    var nbs := Discovered(q, n);
    ExpandFrame(q, n);
    forall x | Lookup(r.ann, x).visited
      ensures HasChain(r.ann, x)
    {
      if x in nbs {
        assert HasChain(p.ann, n);
        var kn: nat :| ChainOfLength(p.ann, n, kn);
        ChainFrame(p.ann, r.ann, n, kn);
        assert ChainOfLength(r.ann, x, kn + 1);
      } else {
        assert HasChain(p.ann, x);
        var k: nat :| ChainOfLength(p.ann, x, k);
        ChainFrame(p.ann, r.ann, x, k);
        assert ChainOfLength(r.ann, x, k);
      }
    }
  }

  /**
   One iteration that expands the popped node keeps the invariant and lowers
   the measure by one; every node it appends to the open list was unvisited
   before, so no node enters the open list twice.
   */
  lemma StepPreservesInv(p: Planner)
    requires Inv(p) && |p.open| > 0
    requires FreshDiscovery(p.model, VisitedSet(p.ann), Discovered(p, NextNode(p).0))
    ensures var (n, q) := NextNode(p);
            var r := AddNeighbors(q, n);
            && Inv(r)
            && Measure(r) == Measure(p) - 1
            && (forall x :: x in r.open && x !in q.open ==> !Lookup(p.ann, x).visited)
  {
    var (n, q) := NextNode(p);
    var r := AddNeighbors(q, n);
    var V := VisitedSet(p.ann);
    var nbs := Discovered(q, n);
    ExpandFrame(q, n);
    ExpandKeepsOpenList(p, q, n);
    ExpandKeepsChains(p, q, n, r);
    var S := Elements(nbs);
    NoDuplicatesCard(nbs);
    assert p.model.nodes - VisitedSet(r.ann) == (p.model.nodes - V) - S;
    DifferenceCard(p.model.nodes - V, S);
  }

  /** The search ended by finding a path that starts at `start`, or by exhausting the open list. */
  ghost predicate Completed(start: NodeId, r: (Status, Planner)) {
    && (r.0 == Found || r.0 == Exhausted)
    && (r.0 == Found ==> r.1.path.Some? && |r.1.path.value| > 0 && r.1.path.value[0] == start)
  }

  /**
   When the node popped from the open list is at the goal, its parent chain
   is found by the bounded walk, so the search stops with a path, and that
   path starts at the start node.
   */
  lemma GoalIterationFinds(p: Planner, fuel: nat)
    requires Inv(p) && |p.open| > 0 && 0 < fuel && p.model.dist(NextNode(p).0, p.end) == 0.0
    ensures Completed(p.start, Search(p, fuel))
    ensures Search(p, fuel).0 == Found
    ensures Search(p, fuel).1.path.value[|Search(p, fuel).1.path.value| - 1] == NextNode(p).0
  {
    var (n, q) := NextNode(p);
    assert q.ann == p.ann && q.start == p.start;
    assert HasChain(q.ann, n);
    var k: nat :| ChainOfLength(q.ann, n, k);
    ChainBound(q.ann, n, k);
    assert ChainHops(q.ann, n, |q.ann.Keys|) == Some(k);
    var path := ConstructFinalPath(q, n, k).0;
    PathStartVisited(q.ann, path, k);
    assert Iterate(p) == Stop(Found, ConstructFinalPath(q, n, k).1.(path := Some(path)));
  }

  /** An iteration that continues from `r` hands the rest of the search over to `r`. */
  lemma ContinueHandsOver(p: Planner, fuel: nat, r: Planner)
    requires |p.open| > 0 && fuel > 0 && Iterate(p) == Continue(r)
    ensures Search(p, fuel) == Search(r, fuel - 1)
  {
  }

  /**
   An iteration that pops a node away from the goal continues from a state
   that keeps the invariant, with one iteration fewer needed.
   */
  lemma ExpandingIteration(p: Planner, fuel: nat) returns (r: Planner)
    requires DiscoversFreshNodes(p.model) && Inv(p) && Measure(p) <= fuel
    requires |p.open| > 0 && p.model.dist(NextNode(p).0, p.end) != 0.0
    ensures fuel > 0 && Iterate(p) == Continue(r)
    ensures r.model == p.model && r.start == p.start
    ensures Inv(r) && Measure(r) <= fuel - 1
  {
    var (n, q) := NextNode(p);
    r := AddNeighbors(q, n);
    StepPreservesInv(p);
  }

  /**
   Given at least `Measure(p)` iterations, the loop ends by finding a path or
   exhausting the open list, never by running out of iterations or meeting a
   cyclic parent chain; a path it publishes starts at the start node.
   */
  lemma {:induction false} SearchCompletes(p: Planner, fuel: nat)
    requires DiscoversFreshNodes(p.model) && Inv(p) && Measure(p) <= fuel
    ensures Completed(p.start, Search(p, fuel))
    decreases fuel, 1
  {
    if |p.open| > 0 {
      if p.model.dist(NextNode(p).0, p.end) == 0.0 {
        GoalIterationFinds(p, fuel);
      } else {
        var r := ExpandingIteration(p, fuel);
        RemainingSearchCompletes(r, fuel);
        ContinueHandsOver(p, fuel, r);
      }
    }
  }

  /** The same, for the iterations left after one that expanded a node. */
  lemma {:induction false} RemainingSearchCompletes(r: Planner, fuel: nat)
    requires DiscoversFreshNodes(r.model) && Inv(r) && 0 < fuel && Measure(r) <= fuel - 1
    ensures Completed(r.start, Search(r, fuel - 1))
    decreases fuel, 0
  {
    SearchCompletes(r, fuel - 1);
  }

  /** Every parent link joins a node to one that discovery yielded for it. */
  ghost predicate DiscoveryLinked(m: RouteModel, ann: map<NodeId, Annotation>) {
    forall x {:trigger ParentOf(ann, x)} :: ParentOf(ann, x).Some? ==> Linked(m, ParentOf(ann, x).value, x)
  }

  /** Expansion links each discovered neighbour to the expanded node, so every parent link still follows discovery. */
  lemma AddNeighborsLinked(p: Planner, cur: NodeId)
    requires DiscoveryLinked(p.model, p.ann)
    ensures DiscoveryLinked(p.model, AddNeighbors(p, cur).ann)
  {
    var q := AddNeighbors(p, cur);
    var nbs := Discovered(p, cur);
    forall x | ParentOf(q.ann, x).Some?
      ensures Linked(p.model, ParentOf(q.ann, x).value, x)
    {
      if x in nbs {
        assert ParentOf(q.ann, x) == Some(cur);
        assert x in p.model.discover(cur, VisitedSet(p.ann));
      } else {
        assert ParentOf(q.ann, x) == ParentOf(p.ann, x);
      }
    }
  }

  /** One iteration keeps every parent link a discovery link, whether it stops or continues. */
  lemma IterateLinked(p: Planner)
    requires |p.open| > 0 && DiscoveryLinked(p.model, p.ann)
    ensures var s := Iterate(p);
            DiscoveryLinked(p.model, (if s.Continue? then s.next else s.final).ann)
  {
    var (n, q) := NextNode(p);
    AddNeighborsLinked(q, n);
  }

  /** The search loop keeps every parent link a discovery link. */
  lemma {:induction false} SearchLinked(p: Planner, fuel: nat)
    requires DiscoveryLinked(p.model, p.ann)
    ensures DiscoveryLinked(p.model, Search(p, fuel).1.ann)
    decreases fuel, 1
  {
    if |p.open| > 0 && fuel > 0 {
      IterateLinked(p);
      match Iterate(p)
      case Stop(_, _) =>
      case Continue(r) =>
        RemainingLinked(r, fuel);
        ContinueHandsOver(p, fuel, r);
    }
  }

  /** The same, for the iterations left after one that expanded a node. */
  lemma {:induction false} RemainingLinked(r: Planner, fuel: nat)
    requires DiscoveryLinked(r.model, r.ann) && 0 < fuel
    ensures DiscoveryLinked(r.model, Search(r, fuel - 1).1.ann)
    decreases fuel, 0
  {
    SearchLinked(r, fuel - 1);
  }

  /** A traced path over discovery links is connected: each node is a neighbour of the one before it. */
  lemma TracedLinked(p: Planner)
    requires PathTraced(p) && DiscoveryLinked(p.model, p.ann)
    ensures ConnectedPath(p.model, p.path.value)
  {
    var path := p.path.value;
    forall i | 0 < i < |path|
      ensures Linked(p.model, path[i - 1], path[i])
    {
      assert ParentOf(p.ann, path[i]) == Some(path[i - 1]);
    }
  }

  /**
   A path the search publishes is connected in the graph: each node after the
   first was discovered as a neighbour of the node before it. This holds for
   every amount of fuel, whatever discovery yields, from any planner whose
   parent links already follow discovery (a fresh planner has none).
   */
  lemma AStarPathConnected(p: Planner, fuel: nat)
    requires DiscoveryLinked(p.model, p.ann)
    ensures var r := AStarSearch(p, fuel);
            r.0 == Found ==> ConnectedPath(p.model, r.1.path.value)
  {
    var q := Initialize(p);
    assert DiscoveryLinked(q.model, q.ann) by {
      forall x | ParentOf(q.ann, x).Some?
        ensures Linked(q.model, ParentOf(q.ann, x).value, x)
      {
        assert ParentOf(q.ann, x) == ParentOf(p.ann, x);
      }
    }
    SearchLinked(q, fuel);
    var r := Search(q, fuel);
    if r.0 == Found {
      TracedLinked(r.1);
    }
  }

  /**
   A search from a freshly constructed planner whose start node lies in the
   graph, over a graph whose discovery yields only fresh nodes, completes
   within as many iterations as the graph has nodes: it finds a path that
   starts at the start node and ends at distance zero from the end node, or
   it exhausts the open list and publishes nothing.
   */
  lemma AStarSearchCompletes(p: Planner, fuel: nat)
    requires DiscoversFreshNodes(p.model) && p.start in p.model.nodes
    requires p.ann == map[] && p.open == [] && |p.model.nodes| <= fuel
    ensures var r := AStarSearch(p, fuel);
            && (r.0 == Found || r.0 == Exhausted)
            && (r.0 == Found ==> PathPublished(r.1) && r.1.path.value[0] == p.start)
            && (r.0 == Exhausted ==> r.1.path == p.path)
  {
    InitializeEstablishesInv(p);
    SearchCompletes(Initialize(p), fuel);
  }

  /**
   End to end: a planner built by the constructor over a graph whose
   closest-node lookup yields graph nodes and whose discovery yields only
   fresh nodes, searched with as many iterations as the graph has nodes,
   finds a path from the start node to the goal, each node a neighbour of the
   one before it, or exhausts the open list and publishes nothing.
   */
  lemma ConstructedSearchCompletes(model: RouteModel, startX: real, startY: real, endX: real, endY: real)
    requires DiscoversFreshNodes(model) && ClosestInGraph(model)
    ensures var p := NewPlanner(model, startX, startY, endX, endY);
            var r := AStarSearch(p, |model.nodes|);
            && (r.0 == Found || r.0 == Exhausted)
            && (r.0 == Found ==> PathPublished(r.1) && r.1.path.value[0] == p.start)
            && (r.0 == Found ==> ConnectedPath(model, r.1.path.value))
            && (r.0 == Exhausted ==> r.1.path == None)
  {
    var p := NewPlanner(model, startX, startY, endX, endY);
    AStarSearchCompletes(p, |model.nodes|);
    AStarPathConnected(p, |model.nodes|);
  }
}

=== FILE: wrappers.dfy ===
/** Optional values, used for parent links and for the published path. */
module Wrappers {

  /** A present value (`Some`) or its absence (`None`), in place of a null reference. */
  datatype Option<+T> = None | Some(value: T)
}
